=== FILE: README.md ===
# BattleField: a Dafny model of the arena simulation core

This project models the simulation core of `BattleField`, the engine of a
turn-based arena game. Two warriors fight on a grid of cells. Each cell is
NORMAL or BLOCKED, and it may hold a special item. The engine:

- builds the grid once;
- looks cells up with a bounds check;
- lists the 8-neighbourhood of a cell;
- scans the grid for cells that still hold an item;
- runs `fight`, a loop of macro-turns (ticks). In each tick one warrior, chosen by the
  tick's parity, plays a fixed number of sub-turns. A Move walks a path of cells,
  limited by a per-turn step budget of `speed / 5` and by an adjacency anti-cheat gate.
  An Attack finds its target by position and lands if the target is inside a circular
  range. A defeated warrior is replaced by its manager. The loop continues while every
  listener votes to continue.

Everything outside the engine is an input to the model:

- the actions a warrior plays;
- the Gaussian and uniform random draws;
- the warriors handed out by managers;
- the listeners' votes.

What remains is deterministic, and it is written as pure functions over immutable values.

Modules, in dependency order:

- `Wrappers` (`wrappers.dfy`): `Option` and `Result`.
- `Grid` (`grid.dfy`): cells, the field, `initCells`, `getFieldCell`,
  `getAdjacentCells`, `getSpecialItems`, `getFreeCell` and item removal.
- `Combat` (`combat.dfy`): warriors, `isWarriorInRange`, `findWarriorInMap`
  and `executeAttackAction`.
- `Movement` (`movement.dfy`): `executeMoveAction` as a walk over the path,
  with reference definitions for the gate, the step budget and the committed
  position.
- `Arena` (`arena.dfy`): `addWarriorManager`, `requestNextWarrior`, the
  session record, one macro-turn of `fight` (`Tick`), the loop (`Fight`) and
  `getEnemyData`.

Modelling choices:

- A cell is identified by its coordinates. The grid stores at column `x`,
  row `y` a cell whose own coordinates are `(x, y)`. So comparing grid cells
  by identity, as the source does, is comparing coordinates. Path cells and attack
  targets are coordinates resolved against the grid.
- The `warriors` map is a sequence in insertion order. Registry order stands in for
  the hash map's iteration order, which is unspecified. The map only grows, so
  defeated warriors stay in it where they fell.
- A warrior and the wrapper that counts its steps form one record.
  `currentWarriorWrapper` is an index into the registry.
- Java's `speed / 5` truncates toward zero, and `Quot` models that. The float cast
  `(int) damage` also truncates toward zero, and `Trunc` models that.

Facts about the code that are easy to misread:

- the defence multiplier `v / 0.75 + 0.25` lies in [1/4, 19/12);
- the attack target need not be alive, because `findWarriorInMap` does not look at health;
- an adjacency violation only ends the path. There is no forfeit.

The walk's gate is written geometrically (`Movement.Gate`: the same cell, or
one king move away inside the map). `Movement.GateIsAdjacency` proves it equal
to the membership test in the list `getAdjacentCells` builds, which
`Grid.AdjacentCells` models branch by branch. `Tick` is defined as
`Round(Select(s), input)`: `Select` advances the tick and picks the current
warrior, and `Round` plays or replaces it and collects the votes.

## Model

| member | source | states |
|---|---|---|
| Grid.InitCells | BattleField-IA/src/ia/battle/camp/BattleField.java:59-83 | the built grid is well formed: the cell at `[i][j]` stores `(i, j)`; it is BLOCKED exactly where the terrain draw exceeded its threshold; a BLOCKED cell never carries an item, a NORMAL one carries the drawn item |
| Grid.GetFieldCell | BattleField-IA/src/ia/battle/camp/BattleField.java:85-91 | fails with `OutOfMap` exactly when `x < 0`, `x >= width`, `y < 0` or `y >= height`; otherwise returns the grid's cell, whose stored coordinates are `(x, y)` |
| Grid.AdjacentCells | BattleField-IA/src/ia/battle/camp/BattleField.java:338-370 | at most 8 cells, all grid cells one king move away, every in-bounds cell one king move away is present, none twice, never the cell itself |
| Grid.IsAdjacentIff | BattleField-IA/src/ia/battle/camp/BattleField.java:388-390 | the anti-cheat membership test `getAdjacentCells(p).contains(q)` holds exactly when `q` is inside the map and at Chebyshev distance 1 from `p` |
| Grid.IsAdjacentSymmetric | BattleField-IA/src/ia/battle/camp/BattleField.java:338-370 | for two in-bounds cells, `q` is adjacent to `p` exactly when `p` is adjacent to `q` |
| Grid.GetSpecialItems | BattleField-IA/src/ia/battle/camp/BattleField.java:154-163 | the result holds exactly the grid cells that carry an item, each once, in the column-by-column order of the scan |
| Grid.FreeCell | BattleField-IA/src/ia/battle/camp/BattleField.java:173-182 | the result is a NORMAL in-bounds cell, and it is the first draw that is not BLOCKED |
| Grid.RemoveItem | BattleField-IA/src/ia/battle/camp/BattleField.java:402 | the cell loses its item, and every other cell and the terrain stay as they were |
| Combat.InRange | BattleField-IA/src/ia/battle/camp/BattleField.java:137-152 | the current warrior's circular range test: every target it accepts lies within `|range|` on each axis, and every target whose horizontal plus vertical distance is at most `|range|` is accepted |
| Combat.InRangeSymmetric | BattleField-IA/src/ia/battle/camp/BattleField.java:137-152 | the range test gives the same answer with the two positions swapped |
| Combat.FindWarrior | BattleField-IA/src/ia/battle/camp/BattleField.java:328-336 | returns the first registered warrior standing on the cell, whatever its health; returns nothing exactly when no warrior stands there |
| Combat.DefenseFactorRange | BattleField-IA/src/ia/battle/camp/BattleField.java:318-319 | for a roll in [0, 1) the defence multiplier lies in [1/4, 19/12) |
| Combat.Damage | BattleField-IA/src/ia/battle/camp/BattleField.java:321-325 | a non-positive net damage removes no health; a positive one removes its truncation, which is at most the net and more than the net minus one |
| Combat.ExecuteAttack | BattleField-IA/src/ia/battle/camp/BattleField.java:305-326 | no effect when no warrior stands on the cell or the found one is out of range; otherwise only the found warrior's health changes, lowered by the truncated net damage when that is positive |
| Combat.BlowBounded | BattleField-IA/src/ia/battle/camp/BattleField.java:312-323 | with non-negative strength and defence and both rolls in [0, 1), one blow removes at most `strength - 1` health, and nothing when the strength is 0 |
| Combat.ExecuteAttackBounded | BattleField-IA/src/ia/battle/camp/BattleField.java:305-326 | with non-negative stats and rolls in [0, 1), an attack never raises health, never changes anything but health, and removes at most `strength - 1` |
| Combat.AttackOwnCell | BattleField-IA/src/ia/battle/camp/BattleField.java:300-336 | in any registry, a warrior attacking its own cell, with no earlier entry standing there, loses exactly the blow's damage measured against its own defence; nothing else changes |
| Combat.AttackHitsFallenWarrior | BattleField-IA/src/ia/battle/camp/BattleField.java:300-336 | in any registry, when the warrior found on the attacked cell is a defeated one, it takes the blow and stays defeated, and every other entry is unchanged, so a living warrior later on the same cell is shielded |
| Movement.GateIsAdjacency | BattleField-IA/src/ia/battle/camp/BattleField.java:388-396 | the walk's gate, "the previous cell or one king move away inside the map", is exactly the source's test `fieldCell.equals(previousCell) \|\| getAdjacentCells(previousCell).contains(fieldCell)` |
| Movement.Walk | BattleField-IA/src/ia/battle/camp/BattleField.java:380-431 | the walk keeps the terrain, never processes past the end of the path, and leaves the previous cell inside the map |
| Movement.WalkPrev | BattleField-IA/src/ia/battle/camp/BattleField.java:377-398 | the previous cell ends as the last processed path cell, whether or not the warrior moved onto it, or stays at the start when no cell was processed |
| Movement.WalkProcessed | BattleField-IA/src/ia/battle/camp/BattleField.java:380-398 | the cells processed are exactly the shortest of three: the rest of the path, the prefix forming legal king steps from the previous cell, and the remaining budget. Each examined cell costs one step. The stop reason says which limit was hit, and the budget test comes first |
| Movement.WalkPosition | BattleField-IA/src/ia/battle/camp/BattleField.java:408-430 | the final position is the last processed cell that is in bounds and NORMAL, or the start when there is none. BLOCKED cells are skipped and the path goes on |
| Movement.LastStandIsStartOrStandable | BattleField-IA/src/ia/battle/camp/BattleField.java:408-430 | following a path with skipping ends at the start, or on a NORMAL in-bounds cell of the path |
| Movement.WalkStaysInBounds | BattleField-IA/src/ia/battle/camp/BattleField.java:388-398 | every processed cell is inside the map, so the out-of-map half of the commit test (lines 411-416) never fires |
| Movement.WalkClearsItems | BattleField-IA/src/ia/battle/camp/BattleField.java:400-406 | every processed cell ends without an item |
| Movement.WalkNeverRestocks | BattleField-IA/src/ia/battle/camp/BattleField.java:400-406 | a cell without an item before the walk is still without one after it |
| Movement.WalkKeepsItems | BattleField-IA/src/ia/battle/camp/BattleField.java:400-406 | every cell not processed keeps its content |
| Movement.WalkIgnoresMayUse | BattleField-IA/src/ia/battle/camp/BattleField.java:400-406 | the `useSpecialItem()` answers change only the list of applied items; the item leaves the cell either way |
| Movement.ExecuteMove | BattleField-IA/src/ia/battle/camp/BattleField.java:372-432 | only position and step counter change. The position stays, or lands on a NORMAL in-bounds path cell. Cells walked are at most the remaining `speed / 5` budget. Steps rise by one per examined cell. Walked cells lose their items, other cells are untouched |
| Movement.ExecuteMoveExact | BattleField-IA/src/ia/battle/camp/BattleField.java:377-431 | the move walks exactly the least of the path length, its legal-step prefix from the warrior's position and the remaining budget, and ends where the independent `LastStand` puts it over those cells |
| Movement.SlowWarriorStays | BattleField-IA/src/ia/battle/camp/BattleField.java:377-385 | a warrior of speed below 5 whose step counter is not negative walks no cell of any path and keeps its position, because `speed / 5` truncates to at most 0 |
| Movement.StepPastBlockedCell | BattleField-IA/src/ia/battle/camp/BattleField.java:380-430 | on any map, a warrior with room for two steps and a path of a BLOCKED neighbour and then a standable neighbour of that block ends on the second cell: the previous cell advanced onto the block, so the second cell passes the gate although the warrior never stood next to it |
| Arena.AddWarriorManager | BattleField-IA/src/ia/battle/camp/BattleField.java:165-171 | the first slot is filled after any call and never changes once set; the new manager lands in one of the two slots |
| Arena.RegisterAllSlots | BattleField-IA/src/ia/battle/camp/BattleField.java:165-171 | after two or more registrations, the first manager holds slot 1 and the last one holds slot 2 |
| Arena.Named | BattleField-IA/src/ia/battle/camp/BattleField.java:191-192 | a warrior always leaves with a name; a named one is unchanged, an unnamed one changes only in its name |
| Arena.Spawn | BattleField-IA/src/ia/battle/camp/BattleField.java:184-210 | the replacement stands on a NORMAL in-bounds cell, is named, and otherwise is the warrior the manager returned |
| Arena.StartFight | BattleField-IA/src/ia/battle/camp/BattleField.java:212-233 | the session starts at tick 0 and in fight. It records the two registered managers. Slot 1 holds the warrior from the first `requestNextWarrior` call and slot 2 the warrior from the second, each placed by its own draws, so one manager registered twice still fields two warriors |
| Arena.MoveTurn | BattleField-IA/src/ia/battle/camp/BattleField.java:255-256 | a Move keeps the invariant and the terrain, changes only the acting warrior's position and step count, and walks at most its remaining budget |
| Arena.AttackTurn | BattleField-IA/src/ia/battle/camp/BattleField.java:257-258 | an Attack keeps the invariant and changes nothing but health values |
| Arena.Dispatch | BattleField-IA/src/ia/battle/camp/BattleField.java:250-263 | one action keeps the session invariant and the terrain. Non-acting warriors change at most in health. The acting warrior walks at most its remaining budget |
| Arena.PlayTurn | BattleField-IA/src/ia/battle/camp/BattleField.java:246-273 | across all sub-turns of a macro-turn, the cells walked by every Move together stay within the one budget `speed / 5`, counted from the step count at `startTurn` |
| Arena.ConjAll | BattleField-IA/src/ia/battle/camp/BattleField.java:287-288 | folding `inFight &= vote` gives the old flag AND every vote, so the flag is sticky once false |
| Arena.TakeTurn | BattleField-IA/src/ia/battle/camp/BattleField.java:246-273 | after `startTurn`, the sub-turns of a living warrior keep the invariant, the terrain and the slots. Other warriors change at most in health. The cells walked in the whole macro-turn are at most `max(0, speed / 5)` |
| Arena.SlowWarriorIdle | BattleField-IA/src/ia/battle/camp/BattleField.java:246-256 | after `startTurn`, a living warrior of speed below 5 walks no cell in its whole macro-turn, however many Moves it plays |
| Arena.Replace | BattleField-IA/src/ia/battle/camp/BattleField.java:274-279 | a defeated current warrior's slot receives a newly spawned warrior appended to the registry; the other slot, the tick and the current index stay |
| Arena.Tick | BattleField-IA/src/ia/battle/camp/BattleField.java:237-290 | the tick rises by one before selection; even ticks select slot 1, odd ticks slot 2. A selected defeated warrior takes no action, and its slot gets a newly spawned warrior from that slot's own manager. A living one keeps both slots. The flag becomes the old flag AND all votes. The invariant holds: every warrior stands on a NORMAL in-bounds cell |
| Arena.Fight | BattleField-IA/src/ia/battle/camp/BattleField.java:237-290 | the do-while loop runs at least one tick and at most one tick per input; the tick counter advances by the number of ticks run |
| Arena.FightStopsAtFirstDissent | BattleField-IA/src/ia/battle/camp/BattleField.java:287-290 | a running fight lasts exactly up to and including the first tick with a dissenting vote, and stays on only when nobody dissents |
| Arena.CoinFlipIsDead | BattleField-IA/src/ia/battle/camp/BattleField.java:228-244 | the state the first tick hands to its round (`Tick` is `Round(Select(s))`) is the same whatever the initial coin flip, and it selects slot 2 |
| Arena.GetEnemyData | BattleField-IA/src/ia/battle/camp/BattleField.java:97-113 | when the current wrapper is slot 1's, the snapshot describes slot 2's warrior; otherwise it describes slot 1's, even if the current wrapper is in neither slot. `inRange` is measured from the current warrior |
| Arena.EnemyAfterTick | BattleField-IA/src/ia/battle/camp/BattleField.java:274-279 | after a tick without a replacement, `getEnemyData` describes the other slot's warrior. After a replacement the current wrapper is still the defeated one, which is in neither slot, so it describes slot 1's warrior. When slot 1 was the one replaced, that is the current side's own newcomer |

## Left out

- Random grid generation: the two Gaussian draws per cell and their 2.5 and 2.1 thresholds are inputs to `InitCells`, given as "blocked" and "drawn item" per cell.
- Grid.FreeCell: the source retries forever. The model takes a finite sequence of random draws and requires one of them to land on a NORMAL cell.
- Float arithmetic: damage and defence are computed in exact reals from the two `nextFloat` rolls, which are inputs. Float rounding is not modelled.
- `WarriorWrapper.reduceHealth` is not part of this model. Its body is not available, and the model assumes plain subtraction with no clamp at zero.
- `isWarriorInRange` compares `Math.pow` doubles. `Combat.InRange` compares exact integers. The two agree while the squares stay below 2^53, where doubles are exact.
- ExecuteMove: `SpecialItem.affectWarrior` is not part of this model. The move only records which items the warrior chose to apply. An item that changes the warrior's speed mid-path is therefore not reflected in the step budget.
- Arena.MoveTurn: its frame (only position and steps change) and its step bound hold because item effects are left out. An applied item could change the warrior's other stats.
- Arena.Dispatch: its frame (other warriors change at most in health) and its step bound hold because item effects are left out.
- Arena.PlayTurn: the shared step budget is proved for a speed that no item can change mid-turn, because item effects are left out.
- Arena.TakeTurn: its frame and its `max(0, speed / 5)` bound hold because item effects are left out.
- `Warrior.playTurn`, `Warrior.useSpecialItem` and `WarriorManager.getNewWarrior` are external code. Their results are inputs.
- Failures in `requestNextWarrior` are not modelled: a manager whose `getNewWarrior` throws leads to a null dereference, and `setPosition` can raise a rule exception. A replacement warrior is always supplied.
- A manager that returns a warrior object already in the `warriors` map is not modelled. That entry would be overwritten instead of added.
- `Thread.sleep` pacing, the `startFight` and `turnLapsed` notifications, and `addListener` have no effect on engine state. Votes are an input sequence.
- The singleton and `ConfigurationManager` lookups: the map width, map height and actions per turn are fields of the field and the session.
- `executeSkipAction` and `executeSuicideAction` are empty. Skip, Suicide and unrecognised actions are no-ops.
- `getWarriors`, `getWarrior1`, `getWarrior2`, `getTick` and `showResult` are accessors and printing.
- Java integer widths: `int` health and steps and `long` tick are unbounded integers. Overflow is not modelled.
- `FieldCell.equals` and `FieldCell.removeSpecialItem` are not part of this model. Cells compare by coordinates, and removal clears the cell's item.

=== FILE: arena.dfy ===
/**
 * The turn engine (BattleField.java: addWarriorManager, requestNextWarrior,
 * fight, getEnemyData).
 *
 * `fight` is modelled as a step function over a session record. Everything
 * the engine asks of code outside it is an input: the actions a warrior plays,
 * the random rolls, the replacement warrior a manager hands out, the random
 * cells `getFreeCell` draws and the listeners' votes.
 */
module Arena {
  import opened Wrappers
  import opened Grid
  import opened Combat
  import opened Movement

  // -------------------------------------------------------- addWarriorManager

  /** The two warrior managers, by identity; `None` is a null field. */
  datatype Registration = Registration(first: Option<nat>, second: Option<nat>)

  /**
   * `addWarriorManager`: the first call fills the first slot, every later one
   * the second slot, overwriting what a previous call put there.
   */
  function AddWarriorManager(r: Registration, wm: nat): (r': Registration)
    ensures r'.first.Some?
    ensures r.first.Some? ==> r'.first == r.first
    ensures r'.first == Some(wm) || r'.second == Some(wm)
  {
    if r.first.None? then r.(first := Some(wm)) else r.(second := Some(wm))
  }

  function RegisterAll(r: Registration, wms: seq<nat>): Registration
    decreases |wms|
  {
    if |wms| == 0 then r else RegisterAll(AddWarriorManager(r, wms[0]), wms[1..])
  }

  /**
   * Starting from no registration, the first manager registered fills the
   * first slot and the LAST of the others fills the second: a third call
   * silently replaces the second manager.
   */
  lemma {:induction false} RegisterAllSlots(wms: seq<nat>)
    requires |wms| >= 2
    ensures RegisterAll(Registration(None, None), wms) == Registration(Some(wms[0]), Some(wms[|wms| - 1]))
  {
    RegisterAllLater(Registration(Some(wms[0]), None), wms[1..]);
  }

  lemma {:induction false} RegisterAllLater(r: Registration, wms: seq<nat>)
    requires r.first.Some? && |wms| >= 1
    ensures RegisterAll(r, wms) == Registration(r.first, Some(wms[|wms| - 1]))
    decreases |wms|
  {
    if |wms| > 1 {
      RegisterAllLater(AddWarriorManager(r, wms[0]), wms[1..]);
    }
  }

  // ----------------------------------------------------------------- session

  /** The action kinds a warrior can return; `Unknown` stands for null or any other class. */
  datatype Action = Move(path: seq<Pos>) | Attack(cell: Pos) | Skip | Suicide | Unknown

  /**
   * One sub-turn as played: the action the warrior returned, the two float
   * rolls an attack would draw, and the warrior's `useSpecialItem()` answers.
   */
  datatype Play = Play(action: Action, damageRoll: real, defenseRoll: real, mayUse: nat -> bool)

  /**
   * A replacement from a warrior manager: the warrior `getNewWarrior` returned,
   * the text of the manager's hash code, and the random cells drawn to place it.
   */
  datatype Recruit = Recruit(warrior: Warrior, hashText: string, draws: seq<Pos>)

  /**
   * What the outside world supplies for one macro-turn: the sub-turns played,
   * the replacement each manager (by identity) would hand out, and the votes.
   */
  datatype TickInput = TickInput(plays: seq<Play>, recruit: nat -> Recruit, votes: seq<bool>)

  /**
   * The engine's state during `fight`. `wm1` and `wm2` are the two registered
   * managers. `registry` is the `warriors` map, which only grows; `slot1`,
   * `slot2` and `current` index it (the two wrappers in play and the wrapper
   * whose turn it is).
   */
  datatype Session = Session(
    field: Field,
    wm1: nat,
    wm2: nat,
    tick: int,
    inFight: bool,
    actionsPerTurn: int,
    registry: seq<Warrior>,
    slot1: nat,
    slot2: nat,
    current: nat)

  /** What the engine keeps true between macro-turns. */
  ghost predicate Inv(s: Session) {
    && Valid(s.field)
    && s.tick >= 0
    && s.slot1 < |s.registry| && s.slot2 < |s.registry| && s.current < |s.registry|
    && s.slot1 != s.slot2
    && forall j :: 0 <= j < |s.registry| ==> CanStand(s.field, s.registry[j].pos)
  }

  /** The number of sub-turns: the `for` loop runs zero times for a non-positive count. */
  function SubTurns(actionsPerTurn: int): nat {
    if actionsPerTurn > 0 then actionsPerTurn else 0
  }

  /** A warrior differs from another at most in position, health and steps. */
  ghost predicate SameStats(a: Warrior, b: Warrior) {
    b == a.(pos := b.pos, health := b.health, steps := b.steps)
  }

  // ------------------------------------------------------- requestNextWarrior

  /** A warrior without a name gets a default one built from its manager's hash code. */
  function Named(w: Warrior, hashText: string): (n: Warrior)
    ensures n.name.Some?
    ensures w.name.Some? ==> n == w
    ensures n == w.(name := n.name)
  {
    if w.name.None? then w.(name := Some("Sin Nombre " + hashText)) else w
  }

  ghost predicate RecruitReady(f: Field, r: Recruit)
    requires Valid(f)
  {
    DrawsInBounds(f, r.draws) && SomeDrawFree(f, r.draws)
  }

  /** `requestNextWarrior`: the named warrior, placed on a free cell. */
  function Spawn(f: Field, r: Recruit): (w: Warrior)
    requires Valid(f) && RecruitReady(f, r)
    ensures CanStand(f, w.pos)
    ensures w.name.Some? && w == r.warrior.(name := w.name, pos := w.pos)
  {
    Named(r.warrior, r.hashText).(pos := FreeCell(f, r.draws))
  }

  // -------------------------------------------------------------------- fight

  /**
   * The start of `fight`: tick 0, both slots filled (the first manager's
   * warrior, then the second's), and a coin flip for the current warrior that
   * the first macro-turn overwrites before anything reads it. `first` is what
   * the first manager's `requestNextWarrior` call obtains and `second` what
   * the second call obtains, so one manager registered twice still hands out
   * two warriors placed by two separate draws.
   */
  function StartFight(f: Field, managers: Registration, actionsPerTurn: int, first: Recruit, second: Recruit, coin: int)
    : (s: Session)
    requires Valid(f) && managers.first.Some? && managers.second.Some?
    requires RecruitReady(f, first) && RecruitReady(f, second)
    ensures Inv(s) && s.tick == 0 && s.inFight && s.field == f
    ensures s.wm1 == managers.first.value && s.wm2 == managers.second.value
    ensures s.registry == [Spawn(f, first), Spawn(f, second)] && s.slot1 == 0 && s.slot2 == 1
  {
    var wm1, wm2 := managers.first.value, managers.second.value;
    var registry := [Spawn(f, first), Spawn(f, second)];
    Session(f, wm1, wm2, 0, true, actionsPerTurn, registry, 0, 1, if coin == 0 then 0 else 1)
  }

  /** A Move by the current warrior; the count is the path cells walked. */
  function MoveTurn(s: Session, path: seq<Pos>, mayUse: nat -> bool): (r: (Session, nat))
    requires Inv(s)
    ensures Inv(r.0) && SameTerrain(s.field, r.0.field)
    ensures r.0 == s.(field := r.0.field, registry := r.0.registry)
    ensures r.0.registry == s.registry[s.current := r.0.registry[s.current]]
    ensures SameStats(s.registry[s.current], r.0.registry[s.current])
    ensures s.registry[s.current].health == r.0.registry[s.current].health
    ensures var a, b := s.registry[s.current], r.0.registry[s.current];
      && r.1 <= Room(StepBudget(a.speed), a.steps)
      && b.steps >= a.steps + r.1
  {
    var m := ExecuteMove(s.field, s.registry[s.current], path, mayUse);
    assert forall j :: 0 <= j < |s.registry| ==> CanStand(m.field, s.registry[j].pos) by {
      forall j | 0 <= j < |s.registry| {
        SameTerrainCanStand(s.field, m.field, s.registry[j].pos);
      }
    }
    (s.(field := m.field, registry := s.registry[s.current := m.warrior]), m.walked)
  }

  /** An Attack by the current warrior: only health values change. */
  function AttackTurn(s: Session, cell: Pos, damageRoll: real, defenseRoll: real): (r: Session)
    requires Inv(s)
    ensures Inv(r) && r == s.(registry := r.registry)
    ensures |r.registry| == |s.registry|
    ensures forall j :: 0 <= j < |s.registry| ==> r.registry[j] == s.registry[j].(health := r.registry[j].health)
  {
    s.(registry := ExecuteAttack(s.registry, s.current, cell, damageRoll, defenseRoll))
  }

  /** The dispatch of one action by the current warrior; the count is the path cells walked. */
  function Dispatch(s: Session, play: Play): (r: (Session, nat))
    requires Inv(s)
    ensures Inv(r.0) && SameTerrain(s.field, r.0.field)
    ensures r.0 == s.(field := r.0.field, registry := r.0.registry)
    ensures |r.0.registry| == |s.registry|
    ensures forall j :: 0 <= j < |s.registry| ==> SameStats(s.registry[j], r.0.registry[j])
    ensures forall j :: 0 <= j < |s.registry| && j != s.current ==>
              r.0.registry[j] == s.registry[j].(health := r.0.registry[j].health)
    ensures var a, b := s.registry[s.current], r.0.registry[s.current];
      && r.1 <= Room(StepBudget(a.speed), a.steps)
      && b.steps >= a.steps + r.1
  {
    match play.action
    case Move(path) => MoveTurn(s, path, play.mayUse)
    case Attack(cell) => (AttackTurn(s, cell, play.damageRoll, play.defenseRoll), 0)
    case _ => (s, 0)
  }

  /**
   * The sub-turns of one macro-turn. Across all of them the current warrior
   * walks no more path cells than its step budget allows from the step count
   * it started with: the budget is shared by all Move actions of the turn.
   */
  function PlayTurn(s: Session, plays: seq<Play>): (r: (Session, nat))
    requires Inv(s)
    ensures Inv(r.0) && SameTerrain(s.field, r.0.field)
    ensures r.0 == s.(field := r.0.field, registry := r.0.registry)
    ensures |r.0.registry| == |s.registry|
    ensures forall j :: 0 <= j < |s.registry| ==> SameStats(s.registry[j], r.0.registry[j])
    ensures forall j :: 0 <= j < |s.registry| && j != s.current ==>
              r.0.registry[j] == s.registry[j].(health := r.0.registry[j].health)
    ensures var a, b := s.registry[s.current], r.0.registry[s.current];
      && r.1 <= Room(StepBudget(a.speed), a.steps)
      && b.steps >= a.steps + r.1
    decreases |plays|
  {
    if |plays| == 0 then (s, 0)
    else
      var (s1, n1) := Dispatch(s, plays[0]);
      var (s2, n2) := PlayTurn(s1, plays[1..]);
      (s2, n1 + n2)
  }

  /**
   * The head of `fight`'s loop body: the tick advances and its parity selects
   * the current warrior, the first slot's on even ticks and the second's on
   * odd ones.
   */
  function Select(s: Session): (r: Session)
    requires Inv(s)
    ensures Inv(r) && r == s.(tick := s.tick + 1, current := r.current)
    ensures r.current == if r.tick % 2 == 0 then s.slot1 else s.slot2
  {
    var t := s.tick + 1;
    s.(tick := t, current := if t % 2 == 0 then s.slot1 else s.slot2)
  }

  /** `inFight &= vote` for every listener in turn. */
  function Conj(acc: bool, votes: seq<bool>): bool
    decreases |votes|
  {
    if |votes| == 0 then acc else Conj(acc && votes[0], votes[1..])
  }

  /** The folded flag is the old flag AND every vote: one dissent stops the fight for good. */
  lemma {:induction false} ConjAll(acc: bool, votes: seq<bool>)
    ensures Conj(acc, votes) <==> acc && forall k :: 0 <= k < |votes| ==> votes[k]
    decreases |votes|
  {
    if |votes| > 0 {
      ConjAll(acc && votes[0], votes[1..]);
      assert forall k :: 1 <= k < |votes| ==> votes[k] == votes[1..][k - 1];
    }
  }

  ghost predicate TickReady(s: Session, input: TickInput)
    requires Valid(s.field)
  {
    && |input.plays| == SubTurns(s.actionsPerTurn)
    && RecruitReady(s.field, input.recruit(s.wm1)) && RecruitReady(s.field, input.recruit(s.wm2))
  }

  /**
   * One iteration of `fight`'s loop: the tick advances, its parity selects the
   * current warrior, a living one plays its sub-turns after `startTurn`, a
   * defeated one is replaced without playing, and the listeners vote.
   */
  function Tick(s: Session, input: TickInput): (r: Session)
    requires Inv(s) && TickReady(s, input)
    ensures Inv(r) && SameTerrain(s.field, r.field) && r.actionsPerTurn == s.actionsPerTurn
    ensures r.wm1 == s.wm1 && r.wm2 == s.wm2
    ensures r.tick == s.tick + 1
    ensures r.current == if r.tick % 2 == 0 then s.slot1 else s.slot2
    ensures r.inFight <==> s.inFight && forall k :: 0 <= k < |input.votes| ==> input.votes[k]
    ensures Defeated(s.registry[r.current]) ==>
      && r.field == s.field
      && r.registry == s.registry + [Spawn(s.field, input.recruit(if r.tick % 2 == 0 then s.wm1 else s.wm2))]
      && (if r.tick % 2 == 0 then r.slot1 == |s.registry| && r.slot2 == s.slot2
          else r.slot1 == s.slot1 && r.slot2 == |s.registry|)
    ensures !Defeated(s.registry[r.current]) ==>
      && r.slot1 == s.slot1 && r.slot2 == s.slot2
      && |r.registry| == |s.registry|
      && (forall j :: 0 <= j < |s.registry| ==> SameStats(s.registry[j], r.registry[j]))
      && (forall j :: 0 <= j < |s.registry| && j != r.current ==>
            r.registry[j] == s.registry[j].(health := r.registry[j].health))
  {
    Round(Select(s), input)
  }

  /** The body of `fight`'s loop once the current warrior is selected. */
  function Round(s: Session, input: TickInput): (r: Session)
    requires Inv(s) && TickReady(s, input) && (s.current == s.slot1 || s.current == s.slot2)
    ensures r.inFight <==> s.inFight && forall k :: 0 <= k < |input.votes| ==> input.votes[k]
  {
    var s2 := if !Defeated(s.registry[s.current]) then TakeTurn(s, input.plays).0
              else Replace(s, input.recruit(if s.current == s.slot1 then s.wm1 else s.wm2));
    ConjAll(s2.inFight, input.votes);
    s2.(inFight := Conj(s2.inFight, input.votes))
  }

  /**
   * A living current warrior plays its sub-turns after `startTurn` resets its
   * steps; the count is the path cells walked in the whole macro-turn, which
   * one `speed / 5` budget bounds.
   */
  function TakeTurn(s: Session, plays: seq<Play>): (r: (Session, nat))
    requires Inv(s)
    ensures Inv(r.0) && SameTerrain(s.field, r.0.field)
    ensures r.0 == s.(field := r.0.field, registry := r.0.registry)
    ensures |r.0.registry| == |s.registry|
    ensures forall j :: 0 <= j < |s.registry| ==> SameStats(s.registry[j], r.0.registry[j])
    ensures forall j :: 0 <= j < |s.registry| && j != s.current ==>
              r.0.registry[j] == s.registry[j].(health := r.0.registry[j].health)
    ensures r.1 <= Room(StepBudget(s.registry[s.current].speed), 0) && r.0.registry[s.current].steps >= r.1
  {
    PlayTurn(s.(registry := s.registry[s.current := s.registry[s.current].(steps := 0)]), plays)
  }

  /** A living warrior slower than 5 walks no cell in its whole macro-turn. */
  lemma SlowWarriorIdle(s: Session, plays: seq<Play>)
    requires Inv(s) && s.registry[s.current].speed < 5
    ensures TakeTurn(s, plays).1 == 0
  {
    StepBudgetSlow(s.registry[s.current].speed);
  }

  /**
   * A defeated current warrior is replaced without playing: the newcomer is
   * appended to the registry and takes over the current slot.
   */
  function Replace(s: Session, recruit: Recruit): (r: Session)
    requires Inv(s) && (s.current == s.slot1 || s.current == s.slot2) && RecruitReady(s.field, recruit)
    ensures Inv(r)
    ensures r.registry == s.registry + [Spawn(s.field, recruit)]
    ensures s.current == s.slot1 ==> r == s.(registry := r.registry, slot1 := |s.registry|)
    ensures s.current != s.slot1 ==> r == s.(registry := r.registry, slot2 := |s.registry|)
  {
    var registry := s.registry + [Spawn(s.field, recruit)];
    if s.current == s.slot1 then s.(registry := registry, slot1 := |s.registry|)
    else s.(registry := registry, slot2 := |s.registry|)
  }

  lemma RecruitReadySameTerrain(f: Field, g: Field, r: Recruit)
    requires SameTerrain(f, g)
    ensures RecruitReady(f, r) <==> RecruitReady(g, r)
  {
    forall k | 0 <= k < |r.draws| {
      SameTerrainCanStand(f, g, r.draws[k]);
    }
  }

  /** Inputs fit for one session stay fit after a tick, which keeps the terrain. */
  lemma InputsReadyAfter(s: Session, t: Session, inputs: seq<TickInput>)
    requires SameTerrain(s.field, t.field) && s.actionsPerTurn == t.actionsPerTurn
    requires s.wm1 == t.wm1 && s.wm2 == t.wm2
    requires forall k :: 0 <= k < |inputs| ==> TickReady(s, inputs[k])
    ensures forall k :: 0 <= k < |inputs| ==> TickReady(t, inputs[k])
  {
    forall k | 0 <= k < |inputs|
      ensures TickReady(t, inputs[k])
    {
      RecruitReadySameTerrain(s.field, t.field, inputs[k].recruit(s.wm1));
      RecruitReadySameTerrain(s.field, t.field, inputs[k].recruit(s.wm2));
    }
  }

  /**
   * `fight`'s do-while loop over the macro-turns for which inputs are given:
   * the body runs at least once and the loop stops after the first tick whose
   * vote leaves the flag false. The count is the number of ticks run.
   */
  function Fight(s: Session, inputs: seq<TickInput>): (r: (Session, nat))
    requires Inv(s) && forall k :: 0 <= k < |inputs| ==> TickReady(s, inputs[k])
    ensures Inv(r.0) && r.1 <= |inputs| && r.0.tick == s.tick + r.1
    ensures |inputs| > 0 ==> r.1 >= 1
    decreases |inputs|
  {
    if |inputs| == 0 then (s, 0)
    else
      var t := Tick(s, inputs[0]);
      if !t.inFight then (t, 1)
      else
        InputsReadyAfter(s, t, inputs[1..]);
        var (u, n) := Fight(t, inputs[1..]);
        (u, n + 1)
  }

  predicate Dissents(input: TickInput) {
    exists k :: 0 <= k < |input.votes| && !input.votes[k]
  }

  /** The index of the first macro-turn in which some listener votes to stop, or the input count. */
  function FirstDissent(inputs: seq<TickInput>): (d: nat)
    ensures d <= |inputs|
    decreases |inputs|
  {
    if |inputs| == 0 then 0
    else if Dissents(inputs[0]) then 0
    else 1 + FirstDissent(inputs[1..])
  }

  /**
   * A running fight lasts exactly up to and including the first macro-turn
   * with a dissenting vote, and is still on afterwards only if no listener
   * ever dissented.
   */
  lemma {:induction false} FightStopsAtFirstDissent(s: Session, inputs: seq<TickInput>)
    requires Inv(s) && s.inFight && forall k :: 0 <= k < |inputs| ==> TickReady(s, inputs[k])
    ensures var (r, n) := Fight(s, inputs);
      var d := FirstDissent(inputs);
      && n == (if d < |inputs| then d + 1 else |inputs|)
      && (r.inFight <==> d == |inputs|)
    decreases |inputs|
  {
    if |inputs| > 0 {
      var t := Tick(s, inputs[0]);
      if t.inFight {
        InputsReadyAfter(s, t, inputs[1..]);
        FightStopsAtFirstDissent(t, inputs[1..]);
      }
    }
  }

  /**
   * The coin flip at the start of `fight` is dead: the first macro-turn
   * overwrites the current warrior before anything reads it, so the state
   * `Tick` hands to `Round` is the same whatever the coin, and the warrior
   * selected is the second slot's, since the first tick is 1.
   */
  lemma CoinFlipIsDead(f: Field, managers: Registration, actionsPerTurn: int, first: Recruit, second: Recruit,
                       c1: int, c2: int)
    requires Valid(f) && managers.first.Some? && managers.second.Some?
    requires RecruitReady(f, first) && RecruitReady(f, second)
    ensures var s1, s2 := StartFight(f, managers, actionsPerTurn, first, second, c1),
                          StartFight(f, managers, actionsPerTurn, first, second, c2);
      && Select(s1) == Select(s2)
      && Select(s1).current == s1.slot2
  {
  }

  // ------------------------------------------------------------ getEnemyData

  /** The snapshot of the opponent handed to the current warrior. */
  datatype WarriorData = WarriorData(pos: Pos, health: int, name: Option<string>, inRange: bool)

  /** The snapshot gives this warrior's position, health and name. */
  predicate Describes(d: WarriorData, w: Warrior) {
    d.pos == w.pos && d.health == w.health && d.name == w.name
  }

  /**
   * `getEnemyData`: the second slot's warrior when the current wrapper IS the
   * first slot's, the first slot's otherwise; in range as seen from the
   * current warrior.
   */
  function GetEnemyData(s: Session): (d: WarriorData)
    requires Inv(s)
    ensures s.current == s.slot1 ==> Describes(d, s.registry[s.slot2])
    ensures s.current != s.slot1 ==> Describes(d, s.registry[s.slot1])
    ensures d.inRange <==> InRange(s.registry[s.current].pos, s.registry[s.current].range, d.pos)
  {
    var me := s.registry[s.current];
    var e := if s.current == s.slot1 then s.registry[s.slot2] else s.registry[s.slot1];
    WarriorData(e.pos, e.health, e.name, InRange(me.pos, me.range, e.pos))
  }

  /**
   * After a macro-turn the enemy is the other slot's warrior, except when the
   * first slot's warrior was found defeated and replaced: the current wrapper
   * is then still the defeated one, and the enemy reported is the replacement
   * on the first warrior's own side.
   */
  lemma EnemyAfterTick(s: Session, input: TickInput)
    requires Inv(s) && TickReady(s, input)
    ensures var r := Tick(s, input);
      var d := GetEnemyData(r);
      && (!Defeated(s.registry[r.current]) ==>
            Describes(d, r.registry[if r.current == r.slot1 then r.slot2 else r.slot1]))
      && (Defeated(s.registry[r.current]) ==>
            && r.current != r.slot1 && r.current != r.slot2
            && Describes(d, r.registry[r.slot1]))
      && (Defeated(s.registry[r.current]) && r.tick % 2 == 0 ==>
            Describes(d, Spawn(s.field, input.recruit(s.wm1))))
  {
  }
}

=== FILE: combat.dfy ===
/**
 * Warriors and attack resolution (BattleField.java: isWarriorInRange,
 * findWarriorInMap, executeAttackAction).
 *
 * A warrior and the wrapper that counts its steps are one record here. The
 * registry is the engine's `warriors` map: every warrior ever requested, in
 * the order the map is iterated, and it only grows. A warrior is named by
 * its index in the registry.
 */
module Combat {
  import opened Wrappers
  import opened Grid

  datatype Warrior = Warrior(
    name: Option<string>,
    pos: Pos,
    health: int,
    strength: int,
    defense: int,
    speed: int,
    range: int,
    steps: int)

  predicate Defeated(w: Warrior) {
    w.health <= 0
  }

  // ---------------------------------------------------------- isWarriorInRange

  /**
   * The circular range test of `isWarriorInRange`: squared distance at most
   * the squared range. The disc it accepts lies between the diamond
   * `|dx| + |dy| <= |range|` and the square `|dx|, |dy| <= |range|`.
   */
  function InRange(center: Pos, range: int, target: Pos): (b: bool)
    ensures b ==> Abs(center.x - target.x) <= Abs(range) && Abs(center.y - target.y) <= Abs(range)
    ensures Abs(center.x - target.x) + Abs(center.y - target.y) <= Abs(range) ==> b
  {
    var dx, dy := center.x - target.x, center.y - target.y;
    DiscBetween(dx, dy, range);
    dx * dx + dy * dy <= range * range
  }

  lemma DiscBetween(dx: int, dy: int, range: int)
    ensures dx * dx + dy * dy <= range * range ==> Abs(dx) <= Abs(range) && Abs(dy) <= Abs(range)
    ensures Abs(dx) + Abs(dy) <= Abs(range) ==> dx * dx + dy * dy <= range * range
  {
    AbsSquare(dx);
    AbsSquare(dy);
    AbsSquare(range);
    DiscWithinSquare(Abs(dx), Abs(dy), Abs(range));
    DiscWithinSquare(Abs(dy), Abs(dx), Abs(range));
    if Abs(dx) + Abs(dy) <= Abs(range) {
      DiamondWithinDisc(Abs(dx), Abs(dy), Abs(range));
    }
  }

  lemma AbsSquare(n: int)
    ensures n * n == Abs(n) * Abs(n)
  {
  }

  lemma DiscWithinSquare(a: nat, b: nat, r: nat)
    ensures a * a + b * b <= r * r ==> a <= r
  {
    assert b * b >= 0;
    SquareMonotone(a, r);
  }

  lemma DiamondWithinDisc(a: nat, b: nat, r: nat)
    requires a + b <= r
    ensures a * a + b * b <= r * r
  {
    SquareMonotone(a + b, r);
    assert (a + b) * (a + b) == a * a + 2 * (a * b) + b * b;
    assert a * b >= 0;
  }

  lemma SquareMonotone(a: nat, b: nat)
    ensures a <= b <==> a * a <= b * b
  {
    if a > b {
      assert a * a == a * (a - b) + a * b;
      assert a * b == b * b + b * (a - b);
      assert a * (a - b) > 0;
    } else {
      assert b * b == b * (b - a) + a * b;
      assert a * b == a * a + a * (b - a);
      assert b * (b - a) >= 0 && a * (b - a) >= 0;
    }
  }

  /** The test does not depend on which of the two is the attacker's position. */
  lemma InRangeSymmetric(p: Pos, range: int, q: Pos)
    ensures InRange(p, range, q) <==> InRange(q, range, p)
  {
    assert (p.x - q.x) * (p.x - q.x) == (q.x - p.x) * (q.x - p.x);
    assert (p.y - q.y) * (p.y - q.y) == (q.y - p.y) * (q.y - p.y);
  }

  // ---------------------------------------------------------- findWarriorInMap

  /**
   * The first registered warrior, from index `from` on, whose position is the
   * attacked cell. Health is not looked at: a defeated warrior, or the
   * attacker itself, is found like any other.
   */
  function FindFrom(registry: seq<Warrior>, cell: Pos, from: nat): (r: Option<nat>)
    requires from <= |registry|
    ensures r.Some? ==> from <= r.value < |registry| && registry[r.value].pos == cell
                        && forall j :: from <= j < r.value ==> registry[j].pos != cell
    ensures r.None? ==> forall j :: from <= j < |registry| ==> registry[j].pos != cell
    decreases |registry| - from
  {
    if from == |registry| then None
    else if registry[from].pos == cell then Some(from)
    else FindFrom(registry, cell, from + 1)
  }

  /** `findWarriorInMap`: the first warrior in iteration order standing on `cell`. */
  function FindWarrior(registry: seq<Warrior>, cell: Pos): (r: Option<nat>)
    ensures r.Some? ==> r.value < |registry| && registry[r.value].pos == cell
                        && forall j :: 0 <= j < r.value ==> registry[j].pos != cell
    ensures r.None? <==> forall j :: 0 <= j < |registry| ==> registry[j].pos != cell
  {
    FindFrom(registry, cell, 0)
  }

  // -------------------------------------------------------- executeAttackAction

  /**
   * The defence multiplier `u / 0.75 + 0.25` for a roll `u` (float arithmetic
   * is taken as exact).
   */
  function DefenseFactor(roll: real): real {
    roll / 0.75 + 0.25
  }

  /** For a roll in [0, 1) the multiplier lies in [1/4, 19/12). */
  lemma DefenseFactorRange(roll: real)
    requires 0.0 <= roll < 1.0
    ensures 0.25 <= DefenseFactor(roll) < 19.0 / 12.0
  {
  }

  /** Damage rolled against defence rolled; positive means the blow lands. */
  function NetDamage(strength: int, defense: int, damageRoll: real, defenseRoll: real): real {
    strength as real * damageRoll - defense as real * DefenseFactor(defenseRoll)
  }

  /** Java's `(int)` cast of a float: truncation toward zero. */
  function Trunc(v: real): int {
    if v >= 0.0 then v.Floor else -((-v).Floor)
  }

  /** The health a landed blow removes: the truncated net damage, or nothing. */
  function Damage(net: real): (d: int)
    ensures d >= 0
    ensures net <= 0.0 ==> d == 0
    ensures net > 0.0 ==> d as real <= net < d as real + 1.0
  {
    if net > 0.0 then Trunc(net) else 0
  }

  /**
   * `executeAttackAction` by the warrior at index `attacker`. The two rolls are
   * the float draws the source makes once the target is found and in range.
   * The whole registry is returned, since the target may be any entry.
   */
  function ExecuteAttack(registry: seq<Warrior>, attacker: nat, cell: Pos, damageRoll: real, defenseRoll: real)
    : (r: seq<Warrior>)
    requires attacker < |registry|
    ensures |r| == |registry|
    ensures FindWarrior(registry, cell).None? ==> r == registry
    ensures forall t :: FindWarrior(registry, cell) == Some(t) ==>
              var a, w := registry[attacker], registry[t];
              if InRange(a.pos, a.range, w.pos)
              then r == registry[t := w.(health := w.health - Damage(NetDamage(a.strength, w.defense, damageRoll, defenseRoll)))]
              else r == registry
  {
    match FindWarrior(registry, cell)
    case None => registry
    case Some(t) =>
      var a, w := registry[attacker], registry[t];
      if !InRange(a.pos, a.range, w.pos) then registry
      else
        var net := NetDamage(a.strength, w.defense, damageRoll, defenseRoll);
        if net > 0.0 then registry[t := w.(health := w.health - Trunc(net))]
        else registry
  }

  /** The most health one blow of an attacker of this strength can remove. */
  function MaxBlow(strength: int): nat {
    if strength > 0 then strength - 1 else 0
  }

  /**
   * With non-negative stats and rolls in [0, 1), one blow removes less than
   * the attacker's strength: the damage roll scales the strength down and the
   * defence term only subtracts.
   */
  lemma {:induction false} BlowBounded(strength: int, defense: int, damageRoll: real, defenseRoll: real)
    requires strength >= 0 && defense >= 0
    requires 0.0 <= damageRoll < 1.0 && 0.0 <= defenseRoll < 1.0
    ensures Damage(NetDamage(strength, defense, damageRoll, defenseRoll)) <= MaxBlow(strength)
  {
    var net := NetDamage(strength, defense, damageRoll, defenseRoll);
    var d := Damage(net);
    DefenseFactorRange(defenseRoll);
    assert defense as real * DefenseFactor(defenseRoll) >= 0.0;
    assert net <= strength as real * damageRoll;
    if strength > 0 && net > 0.0 {
      assert strength as real * damageRoll < strength as real;
      assert d as real <= net;
      assert d as real < strength as real;
    }
  }

  /**
   * An attack only ever lowers one warrior's health, and by less than the
   * attacker's strength when the stats are non-negative and the rolls lie in
   * [0, 1); position, stats and steps of every warrior are unchanged.
   */
  lemma ExecuteAttackBounded(registry: seq<Warrior>, attacker: nat, cell: Pos, damageRoll: real, defenseRoll: real)
    requires attacker < |registry|
    requires registry[attacker].strength >= 0
    requires forall j :: 0 <= j < |registry| ==> registry[j].defense >= 0
    requires 0.0 <= damageRoll < 1.0 && 0.0 <= defenseRoll < 1.0
    ensures var r := ExecuteAttack(registry, attacker, cell, damageRoll, defenseRoll);
      forall j :: 0 <= j < |registry| ==>
        && r[j] == registry[j].(health := r[j].health)
        && registry[j].health - r[j].health <= MaxBlow(registry[attacker].strength)
        && r[j].health <= registry[j].health
  {
    match FindWarrior(registry, cell)
    case None =>
    case Some(t) =>
      var a := registry[attacker];
      BlowBounded(a.strength, registry[t].defense, damageRoll, defenseRoll);
  }

  // ------------------------------------------------------------------ quirks

  /**
   * The target is looked up by position only, so a warrior attacking the cell
   * it stands on hits itself, unless an earlier entry stands there too: its
   * own range always covers its own cell, and the blow is measured against
   * its own defence.
   */
  lemma AttackOwnCell(registry: seq<Warrior>, attacker: nat, damageRoll: real, defenseRoll: real)
    requires attacker < |registry|
    requires forall j :: 0 <= j < attacker ==> registry[j].pos != registry[attacker].pos
    ensures var w := registry[attacker];
      ExecuteAttack(registry, attacker, w.pos, damageRoll, defenseRoll)
        == registry[attacker := w.(health := w.health - Damage(NetDamage(w.strength, w.defense, damageRoll, defenseRoll)))]
  {
    var w := registry[attacker];
    assert FindWarrior(registry, w.pos) == Some(attacker);
    assert InRange(w.pos, w.range, w.pos);
    if NetDamage(w.strength, w.defense, damageRoll, defenseRoll) <= 0.0 {
      assert registry[attacker := w.(health := w.health - 0)] == registry;
    }
  }

  /**
   * The registry keeps defeated warriors where they fell, and the first match
   * wins: when the warrior found on the cell is a fallen one, it takes the
   * blow and every other entry, a living warrior on the same cell included,
   * is untouched.
   */
  lemma AttackHitsFallenWarrior(registry: seq<Warrior>, attacker: nat, cell: Pos, damageRoll: real, defenseRoll: real)
    requires attacker < |registry|
    requires FindWarrior(registry, cell).Some? && Defeated(registry[FindWarrior(registry, cell).value])
    ensures var t := FindWarrior(registry, cell).value;
      var r := ExecuteAttack(registry, attacker, cell, damageRoll, defenseRoll);
      && Defeated(r[t])
      && forall j :: 0 <= j < |registry| && j != t ==> r[j] == registry[j]
  {
  }
}

=== FILE: grid.dfy ===
/**
 * The battle field's grid of cells (BattleField.java: initCells, getFieldCell,
 * getAdjacentCells, getSpecialItems, getFreeCell).
 *
 * A cell is addressed by its coordinates; the grid stores, at column `x` and
 * row `y`, a cell whose own coordinates are `(x, y)`, so a coordinate pair and
 * a grid cell identify each other.
 */
module Grid {
  import opened Wrappers

  datatype Pos = Pos(x: int, y: int)

  datatype CellType = Normal | Blocked

  /** A special item; its effect on a warrior is not part of this model. */
  datatype Item = Item(id: nat)

  datatype Cell = Cell(x: int, y: int, kind: CellType, item: Option<Item>)

  /** The error `getFieldCell` throws for coordinates outside the map. */
  datatype MapError = OutOfMap

  /** `cells[x][y]`, `width` columns of `height` rows each. */
  datatype Field = Field(width: nat, height: nat, cells: seq<seq<Cell>>)

  function At(c: Cell): Pos {
    Pos(c.x, c.y)
  }

  predicate InBounds(f: Field, p: Pos) {
    0 <= p.x < f.width && 0 <= p.y < f.height
  }

  /** What `initCells` establishes and every later operation keeps. */
  ghost predicate Valid(f: Field) {
    && |f.cells| == f.width
    && (forall i :: 0 <= i < f.width ==> |f.cells[i]| == f.height)
    && (forall i, j :: 0 <= i < f.width && 0 <= j < f.height ==>
          f.cells[i][j].x == i && f.cells[i][j].y == j)
    && (forall i, j :: 0 <= i < f.width && 0 <= j < f.height && f.cells[i][j].kind == Blocked ==>
          f.cells[i][j].item == None)
  }

  function CellAt(f: Field, p: Pos): (c: Cell)
    requires Valid(f) && InBounds(f, p)
    ensures At(c) == p
  {
    f.cells[p.x][p.y]
  }

  /** A warrior may stand on the cell at `p`: inside the map and NORMAL. */
  predicate CanStand(f: Field, p: Pos)
    requires Valid(f)
  {
    InBounds(f, p) && CellAt(f, p).kind == Normal
  }

  /** Two fields with the same shape and the same terrain; items may differ. */
  ghost predicate SameTerrain(f: Field, g: Field) {
    && f.width == g.width && f.height == g.height
    && Valid(f) && Valid(g)
    && forall i, j :: 0 <= i < f.width && 0 <= j < f.height ==>
         g.cells[i][j].kind == f.cells[i][j].kind
  }

  lemma SameTerrainCanStand(f: Field, g: Field, p: Pos)
    requires SameTerrain(f, g)
    ensures CanStand(f, p) <==> CanStand(g, p)
  {
  }

  // ---------------------------------------------------------------- initCells

  /**
   * The grid `initCells` builds. The two Gaussian draws per cell are inputs:
   * `blocked(i, j)` says the terrain draw exceeded its threshold, `drawn(i, j)`
   * is the item the item draw produced (None when it stayed under its threshold).
   */
  function InitCells(width: nat, height: nat, blocked: (int, int) -> bool, drawn: (int, int) -> Option<Item>): (f: Field)
    ensures Valid(f) && f.width == width && f.height == height
    ensures forall i, j :: 0 <= i < width && 0 <= j < height ==>
              && (f.cells[i][j].kind == Blocked <==> blocked(i, j))
              && f.cells[i][j].item == (if blocked(i, j) then None else drawn(i, j))
  {
    Field(width, height,
      seq(width, i requires 0 <= i < width =>
        seq(height, j requires 0 <= j < height =>
          if blocked(i, j) then Cell(i, j, Blocked, None) else Cell(i, j, Normal, drawn(i, j)))))
  }

  // ------------------------------------------------------------- getFieldCell

  /** Bounds-checked lookup; the test is written against the array lengths. */
  function GetFieldCell(f: Field, x: int, y: int): (r: Result<Cell, MapError>)
    requires Valid(f)
    ensures r.Failure? <==> !InBounds(f, Pos(x, y))
    ensures r.Success? ==> r.value.x == x && r.value.y == y && r.value == CellAt(f, Pos(x, y))
  {
    if x >= |f.cells| || x < 0 || y >= |f.cells[0]| || y < 0 then Failure(OutOfMap)
    else Success(f.cells[x][y])
  }

  // --------------------------------------------------------- getAdjacentCells

  function Abs(n: int): nat {
    if n < 0 then -n else n
  }

  /** Chebyshev distance: the number of king moves between two positions. */
  function Dist(p: Pos, q: Pos): nat {
    var dx := Abs(p.x - q.x);
    var dy := Abs(p.y - q.y);
    if dx < dy then dy else dx
  }

  /** A grid cell of `f`, identified by its own stored coordinates. */
  ghost predicate IsGridCell(f: Field, c: Cell)
    requires Valid(f)
  {
    InBounds(f, At(c)) && CellAt(f, At(c)) == c
  }

  /**
   * The neighbours of the cell at `p` exactly as the source appends them:
   * east, south, west, north, then the four diagonals, each guarded by the
   * map edge it could cross.
   */
  function NeighbourList(f: Field, p: Pos): seq<Cell>
    requires Valid(f) && InBounds(f, p)
  {
    var x, y := p.x, p.y;
    var w, h := f.width, f.height;
    (if x < w - 1 then [f.cells[x + 1][y]] else [])
    + (if y < h - 1 then [f.cells[x][y + 1]] else [])
    + (if x > 0 then [f.cells[x - 1][y]] else [])
    + (if y > 0 then [f.cells[x][y - 1]] else [])
    + (if x > 0 && y > 0 then [f.cells[x - 1][y - 1]] else [])
    + (if x < w - 1 && y < h - 1 then [f.cells[x + 1][y + 1]] else [])
    + (if x > 0 && y < h - 1 then [f.cells[x - 1][y + 1]] else [])
    + (if x < w - 1 && y > 0 then [f.cells[x + 1][y - 1]] else [])
  }

  lemma NeighbourListLength(f: Field, p: Pos)
    requires Valid(f) && InBounds(f, p)
    ensures |NeighbourList(f, p)| <= 8
  {
  }

  lemma NeighbourListNear(f: Field, p: Pos)
    requires Valid(f) && InBounds(f, p)
    ensures var r := NeighbourList(f, p);
      forall k :: 0 <= k < |r| ==> IsGridCell(f, r[k]) && Dist(At(r[k]), p) == 1
  {
  }

  lemma NeighbourListComplete(f: Field, p: Pos)
    requires Valid(f) && InBounds(f, p)
    ensures forall q :: InBounds(f, q) && Dist(q, p) == 1 ==> CellAt(f, q) in NeighbourList(f, p)
  {
  }

  lemma NeighbourListDistinct(f: Field, p: Pos)
    requires Valid(f) && InBounds(f, p)
    ensures var r := NeighbourList(f, p); forall k, l :: 0 <= k < l < |r| ==> r[k] != r[l]
  {
  }

  /**
   * `getAdjacentCells`: exactly the grid cells one king move away from `p`,
   * at most eight of them, none twice and never the cell at `p` itself.
   */
  function AdjacentCells(f: Field, p: Pos): (r: seq<Cell>)
    requires Valid(f) && InBounds(f, p)
    ensures |r| <= 8
    ensures forall k :: 0 <= k < |r| ==> IsGridCell(f, r[k]) && Dist(At(r[k]), p) == 1
    ensures forall q :: InBounds(f, q) && Dist(q, p) == 1 ==> CellAt(f, q) in r
    ensures forall k, l :: 0 <= k < l < |r| ==> r[k] != r[l]
    ensures CellAt(f, p) !in r
  {
    NeighbourListLength(f, p);
    NeighbourListNear(f, p);
    NeighbourListComplete(f, p);
    NeighbourListDistinct(f, p);
    NeighbourList(f, p)
  }

  /**
   * The anti-cheat membership test `getAdjacentCells(p).contains(q)`, with
   * cells compared by their coordinates.
   */
  predicate IsAdjacent(f: Field, p: Pos, q: Pos)
    requires Valid(f) && InBounds(f, p)
  {
    InBounds(f, q) && CellAt(f, q) in AdjacentCells(f, p)
  }

  /** The membership test is plain geometry: inside the map and one king move away. */
  lemma IsAdjacentIff(f: Field, p: Pos, q: Pos)
    requires Valid(f) && InBounds(f, p)
    ensures IsAdjacent(f, p, q) <==> InBounds(f, q) && Dist(p, q) == 1
  {
    var r := AdjacentCells(f, p);
    if IsAdjacent(f, p, q) {
      var k :| 0 <= k < |r| && r[k] == CellAt(f, q);
      assert At(r[k]) == q;
    }
  }

  /** Adjacency is symmetric, so a step can always be walked back. */
  lemma IsAdjacentSymmetric(f: Field, p: Pos, q: Pos)
    requires Valid(f) && InBounds(f, p) && InBounds(f, q)
    ensures IsAdjacent(f, p, q) <==> IsAdjacent(f, q, p)
  {
    IsAdjacentIff(f, p, q);
    IsAdjacentIff(f, q, p);
  }

  // ---------------------------------------------------------- getSpecialItems

  /** `c` is the grid's own cell at its coordinates and it holds an item. */
  ghost predicate HoldsItem(f: Field, c: Cell)
    requires Valid(f)
  {
    IsGridCell(f, c) && c.item.Some?
  }

  /** Column-major order: the order the source's nested loops visit cells. */
  predicate Before(a: Cell, b: Cell) {
    a.x < b.x || (a.x == b.x && a.y < b.y)
  }

  /**
   * `getSpecialItems`: every cell that holds an item, each once, in the
   * order of the column-by-column scan.
   */
  method GetSpecialItems(f: Field) returns (items: seq<Cell>)
    requires Valid(f)
    ensures forall c :: c in items <==> HoldsItem(f, c)
    ensures forall k, l :: 0 <= k < l < |items| ==> Before(items[k], items[l])
  {
    items := [];
    var i := 0;
    while i < f.width
      invariant 0 <= i <= f.width
      invariant forall c :: c in items <==> HoldsItem(f, c) && c.x < i
      invariant forall k, l :: 0 <= k < l < |items| ==> Before(items[k], items[l])
    {
      var j := 0;
      while j < f.height
        invariant 0 <= j <= f.height
        invariant forall c :: c in items <==> HoldsItem(f, c) && (c.x < i || (c.x == i && c.y < j))
        invariant forall k, l :: 0 <= k < l < |items| ==> Before(items[k], items[l])
        invariant forall k :: 0 <= k < |items| ==> items[k].x < i || (items[k].x == i && items[k].y < j)
      {
        var c := f.cells[i][j];
        if c.item.Some? {
          items := items + [c];
        }
        j := j + 1;
      }
      i := i + 1;
    }
  }

  // -------------------------------------------------------------- getFreeCell

  /** Every draw is a coordinate pair `random.nextInt` can produce. */
  predicate DrawsInBounds(f: Field, draws: seq<Pos>) {
    forall k :: 0 <= k < |draws| ==> InBounds(f, draws[k])
  }

  /** Some draw lands on a NORMAL cell, so the rejection loop stops. */
  predicate SomeDrawFree(f: Field, draws: seq<Pos>)
    requires Valid(f)
  {
    exists k :: 0 <= k < |draws| && CanStand(f, draws[k])
  }

  /**
   * `getFreeCell`: rejection sampling over the successive random draws;
   * the first draw that lands on a NORMAL cell is taken.
   */
  function FreeCell(f: Field, draws: seq<Pos>): (p: Pos)
    requires Valid(f) && DrawsInBounds(f, draws) && SomeDrawFree(f, draws)
    ensures CanStand(f, p)
    ensures exists k :: 0 <= k < |draws| && draws[k] == p
              && forall m :: 0 <= m < k ==> CellAt(f, draws[m]).kind == Blocked
  {
    if CellAt(f, draws[0]).kind == Normal then draws[0]
    else
      var p := FreeCell(f, draws[1..]);
      ghost var k :| 0 <= k < |draws[1..]| && draws[1..][k] == p
                     && forall m :: 0 <= m < k ==> CellAt(f, draws[1..][m]).kind == Blocked;
      assert draws[k + 1] == p;
      p
  }

  // -------------------------------------------------------- removeSpecialItem

  /** The item is taken off the cell at `p`; nothing else on the field changes. */
  function RemoveItem(f: Field, p: Pos): (g: Field)
    requires Valid(f) && InBounds(f, p)
    ensures SameTerrain(f, g)
    ensures CellAt(g, p).item == None
    ensures forall q :: InBounds(f, q) && q != p ==> CellAt(g, q) == CellAt(f, q)
  {
    var column := f.cells[p.x];
    f.(cells := f.cells[p.x := column[p.y := column[p.y].(item := None)]])
  }
}

=== FILE: movement.dfy ===
/**
 * Move resolution (BattleField.java: executeMoveAction).
 *
 * The warrior proposes a path of cells. Each cell costs one step of the
 * per-turn budget `speed / 5`; a cell that is neither the previous path cell
 * nor adjacent to it ends the path; an item on the cell is taken off it; and
 * the warrior's position follows the path only onto cells it may stand on.
 */
module Movement {
  import opened Wrappers
  import opened Grid
  import opened Combat

  /** Java's `int` division, which truncates toward zero. */
  function Quot(a: int, d: int): (q: int)
    requires d > 0
  {
    if a >= 0 then a / d else -((-a) / d)
  }

  /** The number of path cells a warrior of this speed may walk per turn. */
  function StepBudget(speed: int): int {
    Quot(speed, 5)
  }

  /** Speeds below 5, negative ones included, give no positive budget. */
  lemma StepBudgetSlow(speed: int)
    requires speed < 5
    ensures StepBudget(speed) <= 0
  {
  }

  /** The steps still available when `steps` have been used. */
  function Room(budget: int, steps: int): nat {
    if budget > steps then budget - steps else 0
  }

  function Min(a: nat, b: nat): nat {
    if a < b then a else b
  }

  /** Why the walk along a path ended. */
  datatype Stop = Finished | OutOfSteps | Cheating

  /**
   * The state of `executeMoveAction`'s loop: the field (items are taken off
   * it), the warrior's committed position, the previous path cell, the
   * wrapper's step counter, how many path cells have been processed, and the
   * items whose effect the warrior chose to receive.
   */
  datatype Walker = Walker(field: Field, pos: Pos, prev: Pos, steps: int, done: nat, applied: seq<Item>)

  /**
   * The anti-cheat gate: a path cell must be the previous path cell or one
   * king move away from it inside the map. `GateIsAdjacency` shows that this
   * is the source's test, `cell == prev || getAdjacentCells(prev).contains(cell)`.
   */
  predicate Gate(f: Field, prev: Pos, cell: Pos) {
    cell == prev || (InBounds(f, cell) && Dist(prev, cell) == 1)
  }

  lemma GateIsAdjacency(f: Field, prev: Pos, cell: Pos)
    requires Valid(f) && InBounds(f, prev)
    ensures Gate(f, prev, cell) <==> cell == prev || IsAdjacent(f, prev, cell)
  {
    IsAdjacentIff(f, prev, cell);
  }

  /**
   * One processed path cell, after it passed the budget test and the gate:
   * it becomes the previous cell, its item (if any) is taken off the field and
   * recorded as applied when `mayUse(w.done)` holds, and the warrior's
   * position moves onto it when it may stand there.
   */
  function Advance(w: Walker, cell: Pos, mayUse: nat -> bool): (v: Walker)
    requires Valid(w.field) && InBounds(w.field, cell)
    ensures SameTerrain(w.field, v.field)
    ensures v.prev == cell && v.done == w.done + 1 && v.steps == w.steps + 1
    ensures CellAt(v.field, cell).item == None
    ensures forall q :: InBounds(w.field, q) && q != cell ==> CellAt(v.field, q) == CellAt(w.field, q)
  {
    var item := CellAt(w.field, cell).item;
    var field := if item.Some? then RemoveItem(w.field, cell) else w.field;
    var applied := if item.Some? && mayUse(w.done) then w.applied + [item.value] else w.applied;
    var pos := if CanStand(field, cell) then cell else w.pos;
    Walker(field, pos, cell, w.steps + 1, w.done + 1, applied)
  }

  /**
   * The loop over the path from index `w.done` on. `mayUse(k)` is the answer
   * of the warrior's `useSpecialItem()` when asked at path index `k`.
   */
  function Walk(w: Walker, budget: int, path: seq<Pos>, mayUse: nat -> bool): (r: (Walker, Stop))
    requires Valid(w.field) && InBounds(w.field, w.prev) && w.done <= |path|
    ensures SameTerrain(w.field, r.0.field)
    ensures w.done <= r.0.done <= |path|
    ensures InBounds(r.0.field, r.0.prev)
    decreases |path| - w.done
  {
    if w.done == |path| then (w, Finished)
    else if w.steps + 1 > budget then (w.(steps := w.steps + 1), OutOfSteps)
    else if !Gate(w.field, w.prev, path[w.done]) then (w.(steps := w.steps + 1), Cheating)
    else Walk(Advance(w, path[w.done], mayUse), budget, path, mayUse)
  }

  // ------------------------------------------------------ reference definitions

  /** How many leading cells of `cells` form a chain of legal steps from `from`. */
  ghost function GatePrefix(f: Field, from: Pos, cells: seq<Pos>): nat
    decreases |cells|
  {
    if |cells| == 0 then 0
    else if Gate(f, from, cells[0]) then 1 + GatePrefix(f, cells[0], cells[1..])
    else 0
  }

  /** Where a warrior starting at `start` ends after following `cells`, skipping the cells it may not stand on. */
  ghost function LastStand(f: Field, start: Pos, cells: seq<Pos>): Pos
    requires Valid(f)
    decreases |cells|
  {
    if |cells| == 0 then start
    else LastStand(f, if CanStand(f, cells[0]) then cells[0] else start, cells[1..])
  }

  lemma {:induction false} LastStandIsStartOrStandable(f: Field, start: Pos, cells: seq<Pos>)
    requires Valid(f)
    ensures var p := LastStand(f, start, cells);
      p == start || (CanStand(f, p) && p in cells)
    decreases |cells|
  {
    if |cells| > 0 {
      var next := if CanStand(f, cells[0]) then cells[0] else start;
      LastStandIsStartOrStandable(f, next, cells[1..]);
    }
  }

  lemma LastStandSameTerrain(f: Field, g: Field, start: Pos, cells: seq<Pos>)
    requires SameTerrain(f, g)
    ensures LastStand(f, start, cells) == LastStand(g, start, cells)
    decreases |cells|
  {
    if |cells| > 0 {
      SameTerrainCanStand(f, g, cells[0]);
      var next := if CanStand(f, cells[0]) then cells[0] else start;
      LastStandSameTerrain(f, g, next, cells[1..]);
    }
  }

  // ------------------------------------------------------------- walk lemmas

  /**
   * The walk processes exactly as many cells as the shortest of: the rest of
   * the path, its legal-step prefix, and the remaining step budget. Every
   * examined cell costs a step, and the budget test comes before the gate.
   */
  lemma {:induction false} WalkProcessed(w: Walker, budget: int, path: seq<Pos>, mayUse: nat -> bool)
    requires Valid(w.field) && InBounds(w.field, w.prev) && w.done <= |path|
    ensures var (v, stop) := Walk(w, budget, path, mayUse);
      var n := Min(Min(|path| - w.done, GatePrefix(w.field, w.prev, path[w.done..])), Room(budget, w.steps));
      && v.done == w.done + n
      && v.steps == w.steps + n + (if stop == Finished then 0 else 1)
      && (stop == Finished <==> n == |path| - w.done)
      && (stop == OutOfSteps <==> n < |path| - w.done && n == Room(budget, w.steps))
    decreases |path| - w.done
  {
    if w.done < |path| {
      var cell := path[w.done];
      GatePrefixFront(w.field, w.prev, path, w.done);
      if w.steps + 1 > budget {
      } else if !Gate(w.field, w.prev, cell) {
      } else {
        var w' := Advance(w, cell, mayUse);
        WalkProcessed(w', budget, path, mayUse);
        GatePrefixSameTerrain(w.field, w'.field, cell, path[w.done + 1..]);
      }
    }
  }

  /** Unfolds the legal-step prefix of a suffix of the path once. */
  lemma GatePrefixFront(f: Field, from: Pos, path: seq<Pos>, i: nat)
    requires i < |path|
    ensures GatePrefix(f, from, path[i..])
      == if Gate(f, from, path[i]) then 1 + GatePrefix(f, path[i], path[i + 1..]) else 0
  {
    assert path[i..][0] == path[i] && path[i..][1..] == path[i + 1..];
  }

  lemma GatePrefixSameTerrain(f: Field, g: Field, from: Pos, cells: seq<Pos>)
    requires f.width == g.width && f.height == g.height
    ensures GatePrefix(f, from, cells) == GatePrefix(g, from, cells)
    decreases |cells|
  {
    if |cells| > 0 {
      GatePrefixSameTerrain(f, g, cells[0], cells[1..]);
    }
  }

  /**
   * The previous path cell ends as the last processed cell, whether or not
   * the warrior could stand on it.
   */
  lemma {:induction false} WalkPrev(w: Walker, budget: int, path: seq<Pos>, mayUse: nat -> bool)
    requires Valid(w.field) && InBounds(w.field, w.prev) && w.done <= |path|
    ensures var v := Walk(w, budget, path, mayUse).0;
      v.prev == if v.done == w.done then w.prev else path[v.done - 1]
    decreases |path| - w.done
  {
    var cell := if w.done < |path| then path[w.done] else w.prev;
    if w.done == |path| {
      assert Walk(w, budget, path, mayUse).0 == w;
    } else if w.steps + 1 > budget || !Gate(w.field, w.prev, cell) {
      assert Walk(w, budget, path, mayUse).0 == w.(steps := w.steps + 1);
    } else {
      var w' := Advance(w, cell, mayUse);
      var v := Walk(w', budget, path, mayUse).0;
      assert Walk(w, budget, path, mayUse).0 == v;
      WalkPrev(w', budget, path, mayUse);
      if v.done == w'.done {
        assert v.prev == path[v.done - 1];
      }
    }
  }


  /**
   * The committed position is the last processed cell the warrior may stand
   * on, or the starting position when there is none: a cell skipped for being
   * BLOCKED or off the map never becomes the position, and the path goes on.
   */
  lemma {:induction false} WalkPosition(w: Walker, budget: int, path: seq<Pos>, mayUse: nat -> bool)
    requires Valid(w.field) && InBounds(w.field, w.prev) && w.done <= |path|
    ensures var v := Walk(w, budget, path, mayUse).0;
      v.pos == LastStand(w.field, w.pos, path[w.done..v.done])
    decreases |path| - w.done
  {
    var v := Walk(w, budget, path, mayUse).0;
    if w.done < |path| {
      var cell := path[w.done];
      if w.steps + 1 <= budget && Gate(w.field, w.prev, cell) {
        var w' := Advance(w, cell, mayUse);
        WalkPosition(w', budget, path, mayUse);
        var cells := path[w.done..v.done];
        assert cells[0] == cell && cells[1..] == path[w.done + 1..v.done];
        SameTerrainCanStand(w.field, w'.field, cell);
        LastStandSameTerrain(w.field, w'.field, w'.pos, cells[1..]);
      }
    }
  }

  /**
   * Every processed cell lies inside the map: it equals the previous cell or
   * passed the adjacency gate. So the out-of-map half of the commit test
   * never fires and only BLOCKED cells are ever skipped.
   */
  lemma {:induction false} WalkStaysInBounds(w: Walker, budget: int, path: seq<Pos>, mayUse: nat -> bool)
    requires Valid(w.field) && InBounds(w.field, w.prev) && w.done <= |path|
    ensures var v := Walk(w, budget, path, mayUse).0;
      forall k :: w.done <= k < v.done ==> InBounds(w.field, path[k])
    decreases |path| - w.done
  {
    if w.done < |path| {
      var cell := path[w.done];
      if w.steps + 1 <= budget && Gate(w.field, w.prev, cell) {
        WalkStaysInBounds(Advance(w, cell, mayUse), budget, path, mayUse);
      }
    }
  }

  lemma SliceFront<T>(s: seq<T>, a: nat, b: nat)
    requires a < b <= |s|
    ensures s[a..b] == [s[a]] + s[a + 1..b]
  {
  }

  /** Items: the walk never puts an item back on a cell. */
  lemma {:induction false} WalkNeverRestocks(w: Walker, budget: int, path: seq<Pos>, mayUse: nat -> bool)
    requires Valid(w.field) && InBounds(w.field, w.prev) && w.done <= |path|
    ensures var v := Walk(w, budget, path, mayUse).0;
      forall q :: InBounds(w.field, q) && CellAt(w.field, q).item == None ==> CellAt(v.field, q).item == None
    decreases |path| - w.done
  {
    if w.done < |path| {
      var cell := path[w.done];
      if w.steps + 1 <= budget && Gate(w.field, w.prev, cell) {
        var w' := Advance(w, cell, mayUse);
        WalkNeverRestocks(w', budget, path, mayUse);
        forall q | InBounds(w.field, q) && CellAt(w.field, q).item == None
          ensures CellAt(w'.field, q).item == None
        {
          if q != cell {
            assert CellAt(w'.field, q) == CellAt(w.field, q);
          }
        }
      }
    }
  }

  /** Items: every processed cell ends without its item. */
  lemma {:induction false} WalkClearsItems(w: Walker, budget: int, path: seq<Pos>, mayUse: nat -> bool)
    requires Valid(w.field) && InBounds(w.field, w.prev) && w.done <= |path|
    ensures var v := Walk(w, budget, path, mayUse).0;
      forall k :: w.done <= k < v.done ==> InBounds(v.field, path[k]) && CellAt(v.field, path[k]).item == None
    decreases |path| - w.done
  {
    var v := Walk(w, budget, path, mayUse).0;
    if w.done < |path| {
      var cell := path[w.done];
      if w.steps + 1 <= budget && Gate(w.field, w.prev, cell) {
        var w' := Advance(w, cell, mayUse);
        assert v == Walk(w', budget, path, mayUse).0;
        WalkClearsItems(w', budget, path, mayUse);
        WalkNeverRestocks(w', budget, path, mayUse);
        assert CellAt(v.field, cell).item == None;
        forall k | w.done <= k < v.done
          ensures InBounds(v.field, path[k]) && CellAt(v.field, path[k]).item == None
        {
          if k > w.done {
            assert w'.done <= k;
          }
        }
      }
    }
  }

  /** Items: a cell the walk did not process keeps what it held. */
  lemma {:induction false} WalkKeepsItems(w: Walker, budget: int, path: seq<Pos>, mayUse: nat -> bool)
    requires Valid(w.field) && InBounds(w.field, w.prev) && w.done <= |path|
    ensures var v := Walk(w, budget, path, mayUse).0;
      forall q :: InBounds(w.field, q) && q !in path[w.done..v.done] ==> CellAt(v.field, q) == CellAt(w.field, q)
    decreases |path| - w.done
  {
    var v := Walk(w, budget, path, mayUse).0;
    if w.done < |path| {
      var cell := path[w.done];
      if w.steps + 1 <= budget && Gate(w.field, w.prev, cell) {
        var w' := Advance(w, cell, mayUse);
        assert v == Walk(w', budget, path, mayUse).0;
        SliceFront(path, w.done, v.done);
        WalkKeepsItems(w', budget, path, mayUse);
        forall q | InBounds(w.field, q) && q !in path[w.done..v.done]
          ensures CellAt(v.field, q) == CellAt(w.field, q)
        {
          assert q != cell && q !in path[w.done + 1..v.done];
          assert CellAt(v.field, q) == CellAt(w'.field, q);
        }
      }
    }
  }

  /**
   * Whether the warrior accepts an item's effect changes nothing but the list
   * of applied items: the item leaves the cell either way.
   */
  lemma {:induction false} WalkIgnoresMayUse(w1: Walker, w2: Walker, budget: int, path: seq<Pos>, m1: nat -> bool, m2: nat -> bool)
    requires Valid(w1.field) && InBounds(w1.field, w1.prev) && w1.done <= |path|
    requires w1.(applied := w2.applied) == w2
    ensures var (v1, s1) := Walk(w1, budget, path, m1);
      var (v2, s2) := Walk(w2, budget, path, m2);
      s1 == s2 && v1.(applied := v2.applied) == v2
    decreases |path| - w1.done
  {
    if w1.done < |path| {
      var cell := path[w1.done];
      if w1.steps + 1 <= budget && Gate(w1.field, w1.prev, cell) {
        WalkIgnoresMayUse(Advance(w1, cell, m1), Advance(w2, cell, m2), budget, path, m1, m2);
      }
    }
  }

  // ------------------------------------------------------- executeMoveAction

  /** What a Move action leaves behind. */
  datatype MoveOutcome = MoveOutcome(field: Field, warrior: Warrior, walked: nat, applied: seq<Item>, stop: Stop)

  /**
   * `executeMoveAction` for the acting warrior `w`. The walk starts with the
   * previous cell at the warrior's position and uses the wrapper's step
   * counter, which `startTurn` resets once per turn, not once per Move.
   */
  function ExecuteMove(f: Field, w: Warrior, path: seq<Pos>, mayUse: nat -> bool): (r: MoveOutcome)
    requires Valid(f) && InBounds(f, w.pos)
    ensures SameTerrain(f, r.field)
    ensures r.warrior == w.(pos := r.warrior.pos, steps := r.warrior.steps)
    ensures r.walked <= |path| && r.walked <= Room(StepBudget(w.speed), w.steps)
    ensures r.warrior.pos == w.pos || (CanStand(f, r.warrior.pos) && r.warrior.pos in path[..r.walked])
    ensures r.warrior.steps == w.steps + r.walked + (if r.stop == Finished then 0 else 1)
    ensures r.stop == Finished <==> r.walked == |path|
    ensures forall k :: 0 <= k < r.walked ==> InBounds(f, path[k]) && CellAt(r.field, path[k]).item == None
    ensures forall q :: InBounds(f, q) && q !in path[..r.walked] ==> CellAt(r.field, q) == CellAt(f, q)
  {
    var start := Walker(f, w.pos, w.pos, w.steps, 0, []);
    var (v, stop) := Walk(start, StepBudget(w.speed), path, mayUse);
    WalkProcessed(start, StepBudget(w.speed), path, mayUse);
    WalkPosition(start, StepBudget(w.speed), path, mayUse);
    assert path[0..v.done] == path[..v.done];
    LastStandIsStartOrStandable(f, w.pos, path[..v.done]);
    SameTerrainCanStand(f, v.field, v.pos);
    WalkStaysInBounds(start, StepBudget(w.speed), path, mayUse);
    WalkClearsItems(start, StepBudget(w.speed), path, mayUse);
    WalkKeepsItems(start, StepBudget(w.speed), path, mayUse);
    MoveOutcome(v.field, w.(pos := v.pos, steps := v.steps), v.done, v.applied, stop)
  }

  /**
   * The move walks exactly as far as the path, its legal-step prefix from the
   * warrior's position and the remaining budget allow, and ends where the
   * independent `LastStand` says.
   */
  lemma ExecuteMoveExact(f: Field, w: Warrior, path: seq<Pos>, mayUse: nat -> bool)
    requires Valid(f) && InBounds(f, w.pos)
    ensures var r := ExecuteMove(f, w, path, mayUse);
      && r.walked == Min(Min(|path|, GatePrefix(f, w.pos, path)), Room(StepBudget(w.speed), w.steps))
      && r.warrior.pos == LastStand(f, w.pos, path[..r.walked])
  {
    var start := Walker(f, w.pos, w.pos, w.steps, 0, []);
    WalkProcessed(start, StepBudget(w.speed), path, mayUse);
    WalkPosition(start, StepBudget(w.speed), path, mayUse);
    assert path[0..] == path;
    assert path[0..Walk(start, StepBudget(w.speed), path, mayUse).0.done] == path[..Walk(start, StepBudget(w.speed), path, mayUse).0.done];
  }

  /**
   * A warrior slower than 5 walks no cell of any path and stays where it is:
   * `speed / 5` truncates to at most 0, and its step counter is never negative.
   */
  lemma SlowWarriorStays(f: Field, w: Warrior, path: seq<Pos>, mayUse: nat -> bool)
    requires Valid(f) && InBounds(f, w.pos) && w.speed < 5 && w.steps >= 0
    ensures var r := ExecuteMove(f, w, path, mayUse);
      r.walked == 0 && r.warrior.pos == w.pos
  {
    StepBudgetSlow(w.speed);
  }

  // ------------------------------------------------------------------ quirks

  /**
   * The previous path cell advances onto a BLOCKED cell even though the
   * warrior does not: a path of a BLOCKED neighbour `b` and then a standable
   * neighbour `c` of `b` carries a warrior with room for two steps onto `c`,
   * past the block, although `c` need not be adjacent to where it stood.
   */
  lemma StepPastBlockedCell(f: Field, w: Warrior, b: Pos, c: Pos, mayUse: nat -> bool)
    requires Valid(f) && CanStand(f, w.pos) && w.steps == 0 && StepBudget(w.speed) >= 2
    requires InBounds(f, b) && CellAt(f, b).kind == Blocked && Dist(w.pos, b) == 1
    requires CanStand(f, c) && Dist(b, c) == 1
    ensures ExecuteMove(f, w, [b, c], mayUse).warrior.pos == c
  {
    var path := [b, c];
    ExecuteMoveExact(f, w, path, mayUse);
    assert path[1..] == [c] && [c][1..] == [];
    assert GatePrefix(f, w.pos, path) == 2 by {
      assert GatePrefix(f, c, []) == 0;
      assert GatePrefix(f, b, [c]) == 1 by { assert Gate(f, b, c); }
      assert Gate(f, w.pos, b);
    }
    assert path[..2] == path;
    assert LastStand(f, w.pos, path) == c by {
      assert LastStand(f, c, []) == c;
      assert LastStand(f, w.pos, [c]) == c;
      assert !CanStand(f, b);
    }
  }
}

=== FILE: wrappers.dfy ===
/** Failure-carrying results used across the model. */
module Wrappers {

  /** An optional value: the model's stand-in for a nullable reference. */
  datatype Option<+T> = None | Some(value: T)

  /** The outcome of an operation that can throw: a value or an error. */
  datatype Result<+R, +E> = Success(value: R) | Failure(error: E)
}
